=== FILE: README.md ===
# ssl_certificate_by_lua — a Dafny model

This project models the core of `ngx_http_lua_ssl_certby.c` from lua-nginx-module.
That file lets a TLS server choose a certificate per connection by running Lua
code. The Lua code may suspend, but OpenSSL asks for the certificate through a
synchronous callback that it may call again on the same connection.

The model has six modules:

- `NgxCore` (`core.dfy`) holds the nginx return codes, bytes, `size_t`
  wrap-around, `strlen` and the Option/Result wrappers.
- `CertContext` (`cert_context.dfy`) models the per-connection context. It is
  changed by three transitions:
  - the certificate callback `ngx_http_lua_ssl_cert_handler`;
  - the completion hook `ngx_http_lua_ssl_cert_done`;
  - the abort hook `ngx_http_lua_ssl_cert_aborted`.

  Hooks run when the pool they are registered on is destroyed. The module also
  models event traces over a connection: callbacks, the fake connection's pool
  going away, and the connection's pool going away. Lemmas about these traces
  state the lifecycle guarantees.
- `SizeProbe` (`size_probe.dfy`) models the output-buffer convention shared by
  the three issuers. These are RSA key generation, CSR construction and CSR
  signing. The length is asked for first; `NGX_BUSY` and the required length
  are returned when the buffer is too small. The convention is modelled both
  as written and corrected (see Findings).
- `PemChain` (`pem_to_der.dfy`) models `ngx_http_lua_ffi_cert_pem_to_der`. It
  is a pure reference definition plus the read loop as a method.
- `SslSession` (`ssl_session.dfy`) holds the request guard shared by every FFI
  entry point ("bad request" / "bad ssl conn"), the raw server address
  accessor and the SNI server-name accessor.
- `CertInstall` (`cert_install.dfy`) covers installing material on the
  handshake:
  - the leaf-then-chain DER loop of `ngx_http_lua_ffi_ssl_set_der_certificate`;
  - the DER private key;
  - clearing the installed certificates.

OpenSSL and Lua are opaque. An encoder call is an `I2d` value: the bytes it
writes, or its non-positive return. A PEM bundle is the sequence of results
that successive reads give. A DER buffer is a sequence of entities, each
marked as parsing or not and as accepted by the engine or not. The Lua handler
is represented by its return code and the exit code it stored. After a
suspension, the exit code it finally leaves comes with the event that destroys
the fake connection. Allocation and hook-registration results are booleans. Output buffers are `seq<byte>` values
that each call returns updated.

Constants are not defined in the modelled file:
- nginx return codes: `NGX_OK` 0, `NGX_ERROR` -1, `NGX_AGAIN` -2, `NGX_BUSY` -3,
  `NGX_DONE` -4, `NGX_DECLINED` -5.
- Linux address families: `AF_UNIX` 1, `AF_INET` 2, `AF_INET6` 10.
- `offsetof(struct sockaddr_un, sun_path)` is 2.
- `size_t` is 64 bits wide.

Some behaviours of the code are easy to misread; the model follows the code:
- Installing a DER chain is not atomic. When a chain entry fails, the leaf and
  the earlier chain entries stay installed (`CertInstall.PartialChainStays`),
  where an atomic install would leave nothing behind.
- When the first PEM certificate cannot be DER-encoded, the error return leaves
  `*err` unset.
- When writing a signed certificate fails, the error message names
  `i2d_X509_REQ`.

## Model

| member | source | states |
|---|---|---|
| `CertContext.CertHandler` | src/ngx_http_lua_ssl_certby.c:152-283 | A callback on a connection that already has a context changes nothing and does not start the Lua handler again. It returns the stored exit code when the decision is done and -1 while it is pending. On a first call the handler runs at most once, and only after a context has been attached with exit code 1 unless the Lua code stored another. A failure before the context is attached leaves no context. -1 is returned only for a pending decision with both hooks registered. |
| `CertContext.CompletionHook` | src/ngx_http_lua_ssl_certby.c:286-307 | On an aborted context the completion hook changes nothing. Otherwise the decision becomes done, stays not aborted, keeps its exit code and the write event is posted. Nothing else changes. Its precondition is the hook's own `done == 0` assertion. |
| `CertContext.AbortHook` | src/ngx_http_lua_ssl_certby.c:310-329 | On a done context the abort hook changes nothing. Otherwise the decision becomes aborted and the fake request is severed (SSL handle cut, finalized with NGX_ERROR). The posted flag and the hooks stay as they were. |
| `CertContext.Step` | src/ngx_http_lua_ssl_certby.c:168-329 | Every event keeps the connection invariant: the handler started at most once, never both done and aborted, a write posted only for a done decision, the completion hook armed only while not done, the abort hook armed only while not aborted and with a live fake request unless done. An attached context stays attached and done/aborted never revert; a decision that is over keeps its exit code. When the fake connection goes away from a pending decision, the decision becomes done with the exit code the decision logic last stored and the write event is posted. |
| `CertContext.Run` | src/ngx_http_lua_ssl_certby.c:168-329 | Along any sequence of events the invariant holds, the Lua handler is started at most once, done/aborted never revert, and a decision that is over keeps its exit code. |
| `CertContext.DoneRepliesStable` | src/ngx_http_lua_ssl_certby.c:172-182 | After the decision is done, every later callback on any trace returns the same stored exit code. |
| `CertContext.PendingRepliesRetry` | src/ngx_http_lua_ssl_certby.c:172-185 | While the decision is pending, repeated callbacks all return -1 and change nothing. |
| `CertContext.FreshRunSafe` | src/ngx_http_lua_ssl_certby.c:217-268 | From a fresh connection, on any trace, the handler is started at most once. A started decision has run it exactly once. A posted write event means the decision is done. Done and aborted are never both set. |
| `CertContext.CompletionWinsRace` | src/ngx_http_lua_ssl_certby.c:294-328 | For a suspended decision, completion followed by teardown ends done with the exit code last stored by the decision logic, the write event posted and the fake request untouched. The abort is a no-op. |
| `CertContext.AbortWinsRace` | src/ngx_http_lua_ssl_certby.c:294-328 | For a suspended decision, teardown followed by completion ends aborted, with no write event, the fake request severed and the exit code as it was. The completion is a no-op. |
| `CertContext.SuspendedAnswersLastExit` | src/ngx_http_lua_ssl_certby.c:172-182 | After a suspended decision completes, the next callback answers with the exit code the decision logic last stored: 0 for a decision that failed after suspending, so the handshake fails. |
| `CertContext.FirstCallFailsClosed` | src/ngx_http_lua_ssl_certby.c:193-281 | A first call returns -1 exactly when everything was allocated, the handler suspended and both hooks were registered. It returns the exit code of a done decision when the handler finished. Every allocation or registration failure returns 0. |
| `CertContext.FailurePathReleases` | src/ngx_http_lua_ssl_certby.c:271-281 | The failure path returns 0. It closes the fake connection when one was created, freeing the fake request first when that was created. With no fake connection it releases nothing. |
| `NgxCore.ToSize` | src/ngx_http_lua_ssl_certby.c:874-882 | Assigning a C int to a 64-bit size_t keeps non-negative values and wraps negative ones to value + 2^64. |
| `NgxCore.CStrLen` | src/ngx_http_lua_ssl_certby.c:713-716 | The length of a C string is the number of bytes before the first NUL, or the whole buffer when it has none. |
| `SizeProbe.ProbeTail` | src/ngx_http_lua_ssl_certby.c:874-893 | NGX_BUSY exactly when the required length is positive and exceeds `*out_size`; it reports that length and writes nothing. NGX_OK exactly when the length fits and the write succeeds; the buffer then starts with the encoding, keeps its other bytes and `*out_size` is the written length. Otherwise NGX_ERROR with buffer and size unchanged. This is the corrected reading: negative encoder returns count as failures. |
| `SizeProbe.ProbeTailAsWritten` | src/ngx_http_lua_ssl_certby.c:874-893 | As the source writes it, the encoder result is stored in a size_t, so NGX_BUSY always reports a size larger than the caller's. |
| `SizeProbe.AsWrittenAgreesWithoutNegatives` | src/ngx_http_lua_ssl_certby.c:874-893 | When neither encoder call returns a negative value, the as-written tail and the corrected tail give the same result. |
| `SizeProbe.ProbeFailureReportedAsBusy` | src/ngx_http_lua_ssl_certby.c:874-885 | A length query that returns -1 is reported, as written, as NGX_BUSY asking for 2^64-1 bytes. The corrected tail reports NGX_ERROR. |
| `SizeProbe.WriteFailureReportedAsOk` | src/ngx_http_lua_ssl_certby.c:887-893 | A writing call that returns -1 after a successful query is reported, as written, as NGX_OK with `*out_size` = 2^64-1, beyond the buffer. The corrected tail reports NGX_ERROR. |
| `SizeProbe.WriteProbed` | src/ngx_http_lua_ssl_certby.c:880-893 | The byte-copying implementation of the tail gives the corrected tail's result, with the encoding in front of the untouched rest of the buffer. |
| `SizeProbe.Issue` | src/ngx_http_lua_ssl_certby.c:843-916 | A failure before encoding returns NGX_ERROR with its own message and leaves the buffer and `*out_size` alone. Without one, NGX_BUSY exactly when the encoding's length is positive and above `*out_size`, with that length reported and nothing written. NGX_OK exactly when it fits and the write succeeds: the encoding is at the front of the buffer, the bytes after it are kept and `*out_size` is its length. Every NGX_ERROR leaves buffer and size alone, with the length query's message when that query failed and the write's otherwise. This is the corrected reading, in which a negative `i2d_*` return counts as a failure (see Findings). |
| `SizeProbe.RsaGenerateKey` | src/ngx_http_lua_ssl_certby.c:843-916 | NGX_OK exactly when key generation succeeds, the DER key fits in `*out_size` and the write succeeds; the key is then at the front of the buffer, the rest of the buffer is kept and `*out_size` is its length. NGX_BUSY exactly when generation succeeds and the key is longer than `*out_size`; its length is reported and nothing is written. NGX_ERROR leaves buffer and size alone; a setup failure keeps its own message and an encoding failure reports "i2d_PrivateKey() failed". This is the corrected reading, in which a negative `i2d_*` return counts as a failure (see Findings). |
| `SizeProbe.GenerateCsr` | src/ngx_http_lua_ssl_certby.c:918-1063 | The same protocol for the DER CSR: NGX_OK and NGX_BUSY exactly under the same conditions, the buffer and size untouched on NGX_ERROR, a setup failure's own message, and "i2d_X509_REQ() failed" for an encoding failure. This is the corrected reading, in which a negative `i2d_*` return counts as a failure (see Findings). |
| `SizeProbe.SignCsr` | src/ngx_http_lua_ssl_certby.c:1150-1277 | The same protocol for the DER certificate. A failed length query reports "i2d_X509() failed" and a failed write "i2d_X509_REQ() failed". This is the corrected reading, in which a negative `i2d_*` return counts as a failure (see Findings). |
| `SizeProbe.RetryWithReportedSizeSucceeds` | src/ngx_http_lua_ssl_certby.c:880-893 | When the retry encodes the same bytes as the first call: after NGX_BUSY, a second call with a buffer of exactly the reported size returns NGX_OK, the buffer then holds the whole encoding and `*out_size` is its length. |
| `SizeProbe.RegeneratedKeyMayNotFit` | src/ngx_http_lua_ssl_certby.c:860-893 | Key generation runs on every call, so the retry may meet a longer key: a 2-byte key answers NGX_BUSY asking for 2, and a retry with 2 bytes that generates a 3-byte key answers NGX_BUSY again. |
| `PemChain.ScanChain` | src/ngx_http_lua_ssl_certby.c:801-835 | Reading the rest of the chain stops cleanly exactly when it leaves no message in `*err`. |
| `PemChain.ScanChainMeaning` | src/ngx_http_lua_ssl_certby.c:801-835 | Reading the rest of the chain writes the DER of exactly the certificates at the front, in order. It stops successfully exactly when the read after them is the clean no-start-line end. |
| `PemChain.PemToDer` | src/ngx_http_lua_ssl_certby.c:771-840 | A successful conversion returns the number of DER bytes written and leaves `*err` alone; when the leaf certificate is read, the buffer starts with its encoding; without a BIO or a leaf nothing is written and NGX_ERROR is returned; an NGX_ERROR without a message happens only when the leaf cannot be encoded. |
| `PemChain.PemToDerMeaning` | src/ngx_http_lua_ssl_certby.c:771-840 | The conversion does not return NGX_ERROR exactly when the BIO was created, the first read is a certificate and the certificates after it run up to the clean end. It then returns the sum of their DER lengths, equal to the number of bytes written, and the buffer holds their encodings in order. |
| `PemChain.ConvertPem` | src/ngx_http_lua_ssl_certby.c:771-840 | The read loop that appends each encoding and adds its length to the total gives the same return code, written bytes and message as the reference definition. On success the total equals the number of bytes written. |
| `SslSession.HandshakeOf` | src/ngx_http_lua_ssl_certby.c:673-682 | The guard fails exactly when the connection, its SSL wrapper or the OpenSSL connection is missing. A missing connection or SSL wrapper is "bad request"; a missing OpenSSL connection is "bad ssl conn". |
| `SslSession.AddrOf` | src/ngx_http_lua_ssl_certby.c:690-728 | IPv6 gives AF_INET6 and its 16 address bytes. Every other non-Unix family gives AF_INET and 4 bytes. Unix gives AF_UNIX and the path up to its NUL, or the empty string when the socket length does not reach `sun_path`. |
| `SslSession.RawServerAddrAsWritten` | src/ngx_http_lua_ssl_certby.c:659-731 | As written, a guard failure returns NGX_ERROR with its message. Anything else returns 0 (NGX_OK), including a failed local-address lookup. |
| `SslSession.LookupFailureLooksLikeSuccess` | src/ngx_http_lua_ssl_certby.c:684-688 | A failed local-address lookup returns NGX_OK with no address written, so its return code differs from the corrected accessor's. |
| `SslSession.RawServerAddr` | src/ngx_http_lua_ssl_certby.c:659-731 | NGX_OK exactly when the guard passes and the local address is known, always together with that address read as `AddrOf` describes. Otherwise NGX_ERROR, carrying the guard's message when the guard failed. |
| `SslSession.RawServerAddrAgreesOnLookup` | src/ngx_http_lua_ssl_certby.c:684-730 | When the local-address lookup does not fail, the corrected accessor and the source agree. |
| `SslSession.ServerName` | src/ngx_http_lua_ssl_certby.c:734-768 | NGX_ERROR exactly on a guard failure. NGX_DECLINED exactly when the client sent no server name. NGX_OK otherwise, with the name up to its NUL and its length. A guard failure leaves the guard's message ("bad request" or "bad ssl conn") in `*err`; NGX_OK and NGX_DECLINED leave `*err` unset. |
| `CertInstall.AddChain` | src/ngx_http_lua_ssl_certby.c:567-581 | The chain loop succeeds exactly when every remaining entity parses and is accepted. It appends the accepted entities in order up to the first failure. It reports the parse or add failure that stopped it. |
| `CertInstall.TakenCertsAreEntities` | src/ngx_http_lua_ssl_certby.c:569-581 | The certificates the chain loop appends are the entities' own DER bytes, in the order they appear in the buffer. |
| `CertInstall.SetDerCertificate` | src/ngx_http_lua_ssl_certby.c:514-601 | NGX_OK exactly when the guard passes, the BIO is created, the first entity parses and is accepted as the leaf, and every later entity is added to the chain. The leaf is then the first entity and the chain grows by the others in order. A leaf that fails changes nothing. Any failure is NGX_ERROR with a message. |
| `CertInstall.PartialChainStays` | src/ngx_http_lua_ssl_certby.c:567-598 | When a chain entity fails after the leaf was installed, the result is NGX_ERROR. The new leaf and the chain entries added before the failure stay installed. |
| `CertInstall.SetDerPrivateKey` | src/ngx_http_lua_ssl_certby.c:604-656 | NGX_OK exactly when the guard passes, the BIO is created and the first entity parses and is accepted. The key is then replaced and nothing else changes. A failure sets a message and, since a refused key is taken to have no side effect, leaves the credentials unchanged. |
| `CertInstall.ClearCerts` | src/ngx_http_lua_ssl_certby.c:484-511 | NGX_OK exactly when the guard passes, leaving no certificate, chain or key installed. Otherwise NGX_ERROR with the guard's message. |
| `CertInstall.ClearThenInstall` | src/ngx_http_lua_ssl_certby.c:484-601 | Clearing and then installing a fully acceptable DER buffer leaves exactly the first entity as leaf, the rest as chain and no key. |

## Left out

- The Lua runtime and coroutine driving are not modelled: `ngx_http_lua_ssl_cert_by_chunk`, `ngx_http_lua_run_thread` and posted threads (lines 366-448). The handler is reduced to its return code and the exit code it stored.
- CertContext.CertHandler: the exit code stored by the Lua code is limited to 0 (fail) and 1 (proceed), the two dispositions the callback's answer means. The C field is an unconstrained int written by code outside `ngx_http_lua_ssl_certby.c`.
- The code that writes the exit code after a suspension is outside `ngx_http_lua_ssl_certby.c`. The completion event carries the value it left, and an aborted decision keeps its exit code.
- What happens to the fake request and connection after the runner finishes is not modelled.
- The completion and abort hooks run when their pools are destroyed. The model treats those destructions as events. In the failure path after the completion hook is registered, closing the fake connection runs that hook.
- Directive parsing, code-cache keys and loading the Lua source are not modelled: `ngx_http_lua_ssl_cert_by_lua`, `..._handler_file` and `..._handler_inline` are configuration wiring.
- The log-message handler `ngx_http_lua_log_ssl_cert_error` is not modelled; it is formatting glue.
- `ngx_http_lua_ffi_ssl_get_tls1_version` is a passthrough to OpenSSL and is not modelled. The OpenSSL version guards are not modelled either.
- The OpenSSL work is not modelled: RSA generation, CSR and certificate construction (subject, SAN, serial, validity window, SHA-256 signing), and `loadX509`, `loadX509Req`, `loadRSAPrivateKey` and `do_X509_sign`. Every failure before the final encoding is one `setupError` message.
- Releasing OpenSSL objects is not modelled. This includes the BIO that `pem_to_der` does not free when its first read fails (lines 787-790); a failed encoding of the first certificate frees both the certificate and the BIO (lines 793-796).
- SizeProbe.ProbeTail: the two encoder calls on one object are two inputs, assumed to agree when both succeed and to return C ints.
- PemChain.ConvertPem: the running total is an unbounded integer. The source's C int could overflow only for bundles above 2 GiB.
- `pem_to_der` does no bounds check on the output buffer; the model returns the bytes written.
- The PEM reader's distinction between trusted and plain certificate blocks is not modelled. Neither is its error-queue inspection: a read simply yields a certificate, the no-start-line end, or another error.
- CertInstall.SetDerCertificate: OpenSSL-internal effects of `SSL_use_certificate` are not modelled, such as dropping a private key that does not match the new leaf.
- Output buffers are sequences returned by each call, not C arrays written in place.
- SizeProbe.Issue: follows the corrected size-probe tail, not the code as written. When an `i2d_*` call returns a negative value, the code as written answers NGX_BUSY or NGX_OK with `*out_size` = 2^64-1 (Findings; `SizeProbe.ProbeTailAsWritten`); this member answers NGX_ERROR.
- SizeProbe.RsaGenerateKey: built on `SizeProbe.Issue`, so it follows the corrected tail in the same way.
- SizeProbe.GenerateCsr: built on `SizeProbe.Issue`, so it follows the corrected tail in the same way.
- SizeProbe.SignCsr: built on `SizeProbe.Issue`, so it follows the corrected tail in the same way.
- SizeProbe.RetryWithReportedSizeSucceeds: holds only when the retry encodes the same bytes. `ngx_http_lua_ffi_ssl_rsa_generate_key` generates a fresh key on every call (line 861), so its retry may need a different length (`SizeProbe.RegeneratedKeyMayNotFit`).
- CertInstall.SetDerPrivateKey: OpenSSL-internal effects of `SSL_use_PrivateKey` are not modelled. A refused key is assumed to leave the installed certificates alone, although OpenSSL may drop a certificate that does not match the key.

## Findings

| source | as written | input that shows it | evidently intended | confidence | as-written member | corrected member |
|---|---|---|---|---|---|---|
| src/ngx_http_lua_ssl_certby.c:874-885 | `len` is a `size_t` holding the int returned by the `i2d_*` length query, and the failure test is `len <= 0` | the length query returns -1 with `*out_size` = 0: the call returns NGX_BUSY with `*out_size` = 2^64-1 | return NGX_ERROR with the encoder's failure message | not executed; high (the same code sits at lines 1010-1021 and 1230-1241) | `SizeProbe.ProbeFailureReportedAsBusy` | `SizeProbe.ProbeTail` |
| src/ngx_http_lua_ssl_certby.c:887-893 | the writing `i2d_*` call's int result goes through the same `size_t len` and `len <= 0` test | the length query returns 1 on a 1-byte buffer and the writing call returns -1: the call returns NGX_OK with `*out_size` = 2^64-1 and nothing written | return NGX_ERROR with the encoder's failure message | not executed; high (also lines 1024-1030 and 1244-1250) | `SizeProbe.WriteFailureReportedAsOk` | `SizeProbe.ProbeTail` |
| src/ngx_http_lua_ssl_certby.c:686-688 | `return 0;` when `ngx_connection_local_sockaddr` fails | a connection whose local address lookup fails: the call returns 0, which is NGX_OK, with `*addr`, `*addrlen` and `*addrtype` unset | return NGX_ERROR, so that NGX_OK always comes with an address | not executed; medium | `SslSession.LookupFailureLooksLikeSuccess` | `SslSession.RawServerAddr` |

=== FILE: cert_context.dfy ===
/** The per-connection lifecycle behind `ssl_certificate_by_lua*`: OpenSSL's
    synchronous, re-entrant certificate callback starts the Lua decision logic
    once, answers "retry later" while it is suspended, and is woken by the
    completion hook; the abort hook cancels the logic when the connection is torn
    down first. */
module CertContext {
  import opened NgxCore

  /** The disposition handed back to OpenSSL once the decision is over:
      1 lets the handshake proceed, 0 fails it. */
  type ExitCode = x: int | x == 0 || x == 1 witness 1

  /** `ngx_http_lua_ssl_cert_ctx_t`, reduced to the fields `ngx_http_lua_ssl_certby.c` reads and
      writes. */
  datatype CertCtx = CertCtx(done: bool, aborted: bool, exitCode: ExitCode)

  /** What has been done to the fake connection/request pair that hosts the
      decision logic. */
  datatype FakeEnv =
    | NoFake                        // never created, or creating the fake connection failed
    | Created                       // exists and shares the connection's SSL handle
    | Released(requestFreed: bool)  // the failure path closed it, freeing the fake request first when there was one
    | Severed                       // the abort hook cut its SSL handle and finalized the request with NGX_ERROR

  /** The state of one TLS connection as far as this lifecycle is concerned. */
  datatype Conn = Conn(
    ctx: Option<CertCtx>,    // c->ssl->lua_ctx
    fake: FakeEnv,
    completionHook: bool,    // completion hook registered on the fake connection's pool, not yet run
    abortHook: bool,         // abort hook registered on the connection's pool, not yet run
    writePosted: bool,       // the connection's write event has been posted
    handlerRuns: nat)        // how many times the Lua handler has been started

  const Fresh: Conn := Conn(None, NoFake, false, false, false, 0)

  /** Everything a first-time callback depends on that lies outside
      `ngx_http_lua_ssl_certby.c`:
      allocation results, what the Lua handler returned, the exit code it stored
      (None when it kept the default) and whether registering each hook succeeded. */
  datatype Attempt = Attempt(
    fakeConnOk: bool,
    fakeRequestOk: bool,
    ctxAllocOk: bool,
    handlerRc: int,
    storedExit: Option<ExitCode>,
    completionHookOk: bool,
    abortHookOk: bool)

  /** The callback's return value to OpenSSL (an exit code, or -1 for "retry
      later") and the connection afterwards. */
  datatype Reply = Reply(ret: int, conn: Conn)

  /** Where the connection stands, read off its context. */
  datatype Outcome = NotStarted | Pending | Done(exitCode: int) | Aborted

  function OutcomeOf(c: Conn): Outcome {
    match c.ctx
    case None => NotStarted
    case Some(x) => if x.done then Done(x.exitCode) else if x.aborted then Aborted else Pending
  }

  /** Whether the Lua handler's return code ends the decision synchronously. */
  predicate Finishes(rc: int) {
    rc >= NgxOk || rc == NgxError
  }

  /** `ngx_http_lua_ssl_cert_done`: runs when the fake connection's pool is
      destroyed. A context the abort hook got to first is left alone; otherwise
      the decision is marked done and the connection's write event is posted so
      that OpenSSL calls back in. */
  function CompletionHook(c: Conn): (r: Conn)
    requires c.ctx.Some?
    requires c.ctx.value.aborted || !c.ctx.value.done  // the hook asserts done == 0
    ensures c.ctx.value.aborted ==> r == c
    ensures !c.ctx.value.aborted ==>
      && OutcomeOf(r) == Done(c.ctx.value.exitCode)
      && !r.ctx.value.aborted
      && r.writePosted
      && r.fake == c.fake && r.completionHook == c.completionHook && r.abortHook == c.abortHook
      && r.handlerRuns == c.handlerRuns
  {
    var x := c.ctx.value;
    if x.aborted then c
    else c.(ctx := Some(x.(done := true)), writePosted := true)
  }

  /** `ngx_http_lua_ssl_cert_aborted`: runs when the connection's pool is
      destroyed. A context already done is left alone; otherwise the decision
      is marked aborted, the fake connection loses its SSL handle and the fake
      request is finalized with NGX_ERROR. */
  function AbortHook(c: Conn): (r: Conn)
    requires c.ctx.Some?
    ensures c.ctx.value.done ==> r == c
    ensures !c.ctx.value.done ==>
      && OutcomeOf(r) == Aborted
      && r.ctx.value.exitCode == c.ctx.value.exitCode
      && r.fake == Severed
      && r.writePosted == c.writePosted
      && r.completionHook == c.completionHook && r.abortHook == c.abortHook
      && r.handlerRuns == c.handlerRuns
  {
    var x := c.ctx.value;
    if x.done then c
    else c.(ctx := Some(x.(aborted := true)), fake := Severed)
  }

  /** `ngx_http_lua_ssl_cert_handler`, the callback OpenSSL invokes whenever it
      needs a certificate on this connection. */
  function CertHandler(c: Conn, a: Attempt): (r: Reply)
    // re-entry: nothing changes and the Lua handler is not run again
    ensures c.ctx.Some? ==> r.conn == c
    ensures c.ctx.Some? && c.ctx.value.done ==> r.ret == c.ctx.value.exitCode
    ensures c.ctx.Some? && !c.ctx.value.done ==> r.ret == -1
    // first call: the handler runs at most once, and only with a context attached
    ensures c.ctx.None? ==> r.conn.handlerRuns <= c.handlerRuns + 1
    ensures c.ctx.None? && r.conn.handlerRuns == c.handlerRuns + 1 ==>
      r.conn.ctx.Some? && r.conn.ctx.value.exitCode == a.storedExit.GetOr(1)
    ensures c.ctx.None? ==> r.ret == 0 || r.ret == -1 || OutcomeOf(r.conn) == Done(r.ret)
    // a failure before the context is attached leaves none behind
    ensures c.ctx.None? && !(a.fakeConnOk && a.fakeRequestOk && a.ctxAllocOk) ==>
      r.ret == 0 && r.conn.ctx.None? && r.conn.handlerRuns == c.handlerRuns
    // "retry later" only when the decision is really pending with both hooks armed
    ensures c.ctx.None? && r.ret == -1 ==>
      OutcomeOf(r.conn) == Pending && r.conn.completionHook && r.conn.abortHook
  {
    match c.ctx
    case Some(x) =>
      Reply(if x.done then x.exitCode else -1, c)
    case None =>
      if !a.fakeConnOk then Reply(0, c)
      else if !a.fakeRequestOk then Reply(0, c.(fake := Released(false)))
      else if !a.ctxAllocOk then Reply(0, c.(fake := Released(true)))
      else
        var x := CertCtx(false, false, a.storedExit.GetOr(1));
        var running := c.(ctx := Some(x), fake := Created, handlerRuns := c.handlerRuns + 1);
        if Finishes(a.handlerRc) then
          Reply(x.exitCode, running.(ctx := Some(x.(done := true))))
        else if !a.completionHookOk then
          Reply(0, running.(fake := Released(true)))
        else if !a.abortHookOk then
          // closing the fake connection destroys its pool, which runs the
          // completion hook already registered there
          Reply(0, CompletionHook(running).(fake := Released(true)))
        else
          Reply(-1, running.(completionHook := true, abortHook := true))
  }

  /** Things that happen to a connection. */
  datatype Event =
    | Handshake(a: Attempt)   // OpenSSL invokes the certificate callback
    | FakePoolDestroyed(exit: ExitCode)
      // the fake connection goes away and its completion hook runs; `exit` is
      // what the decision logic last stored in the context's exit code (code
      // outside `ngx_http_lua_ssl_certby.c` writes it, e.g. 0 when the fake request is finalized
      // with an error)
    | ConnPoolDestroyed       // the connection goes away: its abort hook runs

  /** The invariant every reachable connection state satisfies. */
  ghost predicate Inv(c: Conn) {
    && (c.ctx.None? ==> !c.completionHook && !c.abortHook && !c.writePosted && c.handlerRuns == 0)
    && (c.ctx.Some? ==> c.handlerRuns == 1)
    && (c.ctx.Some? ==> !(c.ctx.value.done && c.ctx.value.aborted))
    && (c.completionHook ==> c.ctx.Some? && !c.ctx.value.done)
    && (c.abortHook ==> c.ctx.Some? && !c.ctx.value.aborted && (c.ctx.value.done || c.fake == Created))
    && (c.writePosted ==> c.ctx.Some? && c.ctx.value.done)
    && (c.ctx.Some? && c.ctx.value.aborted ==> c.fake == Severed)
  }

  /** The exit code the decision logic left behind when the fake connection
      goes away. An aborted decision's fake request was severed, so nothing
      writes to its context any more. */
  function StoreExit(c: Conn, exit: ExitCode): (r: Conn)
    requires c.ctx.Some?
    ensures c.ctx.value.aborted ==> r == c
    ensures !c.ctx.value.aborted ==> r == c.(ctx := Some(c.ctx.value.(exitCode := exit)))
  {
    if c.ctx.value.aborted then c else c.(ctx := Some(c.ctx.value.(exitCode := exit)))
  }

  /** Each registered hook runs once, when its pool is destroyed. */
  function Step(c: Conn, e: Event): (r: Conn)
    requires Inv(c)
    ensures Inv(r)
    // the context, once attached, stays attached; done and aborted never
    // revert, and a decision that is over keeps its exit code
    ensures c.ctx.Some? ==>
      && r.ctx.Some?
      && (c.ctx.value.done ==> r.ctx.value.done)
      && (c.ctx.value.aborted ==> r.ctx.value.aborted)
      && (c.ctx.value.done || c.ctx.value.aborted ==> r.ctx.value.exitCode == c.ctx.value.exitCode)
    // a pending decision completes with the exit code last stored
    ensures e.FakePoolDestroyed? && c.completionHook && OutcomeOf(c) == Pending ==>
      OutcomeOf(r) == Done(e.exit) && r.writePosted
  {
    match e
    case Handshake(a) => CertHandler(c, a).conn
    case FakePoolDestroyed(exit) =>
      if c.completionHook then CompletionHook(StoreExit(c, exit).(completionHook := false)) else c
    case ConnPoolDestroyed =>
      if c.abortHook then AbortHook(c.(abortHook := false)) else c
  }

  /** The connection after a sequence of events. */
  function Run(c: Conn, es: seq<Event>): (r: Conn)
    requires Inv(c)
    ensures Inv(r)
    ensures r.handlerRuns <= 1
    ensures c.ctx.Some? ==>
      && r.ctx.Some?
      && (c.ctx.value.done ==> r.ctx.value.done)
      && (c.ctx.value.aborted ==> r.ctx.value.aborted)
      && (c.ctx.value.done || c.ctx.value.aborted ==> r.ctx.value.exitCode == c.ctx.value.exitCode)
    decreases |es|
  {
    if es == [] then c else Run(Step(c, es[0]), es[1..])
  }

  /** What the certificate callback returned at each handshake event of a run. */
  function Replies(c: Conn, es: seq<Event>): (rs: seq<int>)
    requires Inv(c)
    decreases |es|
  {
    if es == [] then []
    else
      var rest := Replies(Step(c, es[0]), es[1..]);
      match es[0]
      case Handshake(a) => [CertHandler(c, a).ret] + rest
      case _ => rest
  }

  /** Once the decision is done, every later callback returns the stored exit
      code, whatever else happens to the connection. */
  lemma {:induction false} DoneRepliesStable(c: Conn, es: seq<Event>)
    requires Inv(c) && c.ctx.Some? && c.ctx.value.done
    ensures forall i :: 0 <= i < |Replies(c, es)| ==> Replies(c, es)[i] == c.ctx.value.exitCode
    decreases |es|
  {
    if es != [] {
      var c' := Step(c, es[0]);
      DoneRepliesStable(c', es[1..]);
    }
  }

  /** While the decision is pending and only callbacks arrive, every one of them
      answers "retry later" and the connection does not change. */
  lemma {:induction false} PendingRepliesRetry(c: Conn, es: seq<Event>)
    requires Inv(c) && OutcomeOf(c) == Pending
    requires forall i :: 0 <= i < |es| ==> es[i].Handshake?
    ensures Run(c, es) == c
    ensures Replies(c, es) == seq(|es|, _ => -1)
    decreases |es|
  {
    if es != [] {
      PendingRepliesRetry(c, es[1..]);
    }
  }

  /** Along any run from a fresh connection the Lua handler is started at most
      once, the context never ends both done and aborted, and the write event is
      posted only for a done decision. */
  lemma FreshRunSafe(es: seq<Event>)
    ensures Inv(Fresh)
    ensures Run(Fresh, es).handlerRuns <= 1
    ensures OutcomeOf(Run(Fresh, es)) != NotStarted ==> Run(Fresh, es).handlerRuns == 1
    ensures Run(Fresh, es).writePosted ==> OutcomeOf(Run(Fresh, es)).Done?
    ensures var r := Run(Fresh, es); r.ctx.Some? ==> !(r.ctx.value.done && r.ctx.value.aborted)
  {
  }

  /** A connection whose first callback suspended the decision. */
  ghost predicate Suspended(c: Conn) {
    Inv(c) && OutcomeOf(c) == Pending && c.completionHook && c.abortHook
  }

  /** The completion hook fires first: the decision is done with the exit code
      last stored, the write event is posted, and the later abort is a no-op. */
  lemma CompletionWinsRace(c: Conn, exit: ExitCode)
    requires Suspended(c)
    ensures var r := Run(c, [FakePoolDestroyed(exit), ConnPoolDestroyed]);
      && OutcomeOf(r) == Done(exit)
      && r.writePosted
      && r.fake == c.fake
  {
    var c1 := Step(c, FakePoolDestroyed(exit));
    var c2 := Step(c1, ConnPoolDestroyed);
    assert Run(c, [FakePoolDestroyed(exit), ConnPoolDestroyed]) == Run(c1, [ConnPoolDestroyed]);
    assert Run(c1, [ConnPoolDestroyed]) == Run(c2, []);
  }

  /** The abort hook fires first: the decision is aborted, the fake request is
      severed, and the later completion is a no-op that posts nothing and
      stores no exit code. */
  lemma AbortWinsRace(c: Conn, exit: ExitCode)
    requires Suspended(c)
    ensures var r := Run(c, [ConnPoolDestroyed, FakePoolDestroyed(exit)]);
      && OutcomeOf(r) == Aborted
      && !r.writePosted
      && r.fake == Severed
      && r.ctx.value.exitCode == c.ctx.value.exitCode
  {
    var c1 := Step(c, ConnPoolDestroyed);
    var c2 := Step(c1, FakePoolDestroyed(exit));
    assert Run(c, [ConnPoolDestroyed, FakePoolDestroyed(exit)]) == Run(c1, [FakePoolDestroyed(exit)]);
    assert Run(c1, [FakePoolDestroyed(exit)]) == Run(c2, []);
  }

  /** A suspended decision answers OpenSSL's next callback with the exit code
      the decision logic last stored: one that fails after suspending (exit
      code 0) fails the handshake, one that succeeds lets it proceed. */
  lemma SuspendedAnswersLastExit(c: Conn, exit: ExitCode, a: Attempt)
    requires Suspended(c)
    ensures CertHandler(Step(c, FakePoolDestroyed(exit)), a).ret == exit
    ensures Replies(c, [FakePoolDestroyed(exit), Handshake(a)]) == [exit]
  {
    var c1 := Step(c, FakePoolDestroyed(exit));
    assert Replies(c1, [Handshake(a)]) == [CertHandler(c1, a).ret] + Replies(Step(c1, Handshake(a)), []);
  }

  /** Every failure path of the first callback answers 0 (fail the handshake):
      the only other answers are "retry later" for a suspended decision and the
      exit code of a decision that finished. */
  lemma FirstCallFailsClosed(c: Conn, a: Attempt)
    requires Inv(c) && c.ctx.None?
    ensures var r := CertHandler(c, a);
      && (r.ret == -1 <==> a.fakeConnOk && a.fakeRequestOk && a.ctxAllocOk && !Finishes(a.handlerRc)
                           && a.completionHookOk && a.abortHookOk)
      && (a.fakeConnOk && a.fakeRequestOk && a.ctxAllocOk && Finishes(a.handlerRc) ==>
            r.ret == a.storedExit.GetOr(1) && OutcomeOf(r.conn) == Done(r.ret))
      && ((!(a.fakeConnOk && a.fakeRequestOk && a.ctxAllocOk) ||
           (!Finishes(a.handlerRc) && !(a.completionHookOk && a.abortHookOk))) ==> r.ret == 0)
  {
  }

  /** The failure path releases exactly what was created: the fake request is
      freed when it exists, and the fake connection is closed when it exists. */
  lemma FailurePathReleases(c: Conn, a: Attempt)
    requires Inv(c) && c.ctx.None? && c.fake == NoFake
    requires !(a.fakeConnOk && a.fakeRequestOk && a.ctxAllocOk) ||
             (!Finishes(a.handlerRc) && !(a.completionHookOk && a.abortHookOk))
    ensures CertHandler(c, a).ret == 0
    ensures var f := CertHandler(c, a).conn.fake;
      && (!a.fakeConnOk ==> f == NoFake)
      && (a.fakeConnOk ==> f == Released(a.fakeRequestOk))
  {
  }
}

=== FILE: cert_install.dfy ===
/** Installing certificate material on the handshake from DER bytes: the
    leaf-then-chain loop of `ngx_http_lua_ffi_ssl_set_der_certificate`, the
    private key, and clearing what was installed. Parsing (`d2i_*`) and the
    engine's acceptance (`SSL_use_certificate`, `SSL_add0_chain_cert`,
    `SSL_use_PrivateKey`) are opaque: each entity in the buffer says whether it
    parses and whether the engine takes it. */
module CertInstall {
  import opened NgxCore
  import opened SslSession

  /** One DER entity as the reader meets it in the buffer. */
  datatype DerEntity =
    | DerItem(der: seq<byte>, accepted: bool)  // parses; `accepted`: the engine installs it
    | DerJunk                                  // `d2i_*` fails on it

  /** The entities up to the first one that fails to parse or is refused. */
  function Taken(ents: seq<DerEntity>): (n: nat)
    ensures n <= |ents|
    ensures forall i :: 0 <= i < n ==> ents[i].DerItem? && ents[i].accepted
    ensures n < |ents| ==> !(ents[n].DerItem? && ents[n].accepted)
  {
    if |ents| == 0 || !(ents[0].DerItem? && ents[0].accepted) then 0 else 1 + Taken(ents[1..])
  }

  /** The certificates of those entities, in order. */
  function TakenCerts(ents: seq<DerEntity>): (cs: seq<seq<byte>>)
    ensures |cs| == Taken(ents)
  {
    if |ents| == 0 || !(ents[0].DerItem? && ents[0].accepted) then []
    else [ents[0].der] + TakenCerts(ents[1..])
  }

  /** Those certificates are the entities' own bytes, position by position. */
  lemma {:induction false} TakenCertsAreEntities(ents: seq<DerEntity>)
    ensures forall i :: 0 <= i < |TakenCerts(ents)| ==> ents[i].DerItem? && TakenCerts(ents)[i] == ents[i].der
    decreases |ents|
  {
    if |ents| > 0 && ents[0].DerItem? && ents[0].accepted {
      TakenCertsAreEntities(ents[1..]);
      var cs := TakenCerts(ents);
      forall i | 0 <= i < |cs|
        ensures ents[i].DerItem? && cs[i] == ents[i].der
      {
        if i > 0 {
          assert cs[i] == TakenCerts(ents[1..])[i - 1];
        }
      }
    }
  }

  /** The loop after the leaf: until the buffer is exhausted, each entity is
      parsed and appended to the chain; the first failure stops it with its
      message, leaving the chain certificates already added in place. */
  function AddChain(creds: Credentials, ents: seq<DerEntity>): (r: (Option<string>, Credentials))
    ensures r.0.None? <==> Taken(ents) == |ents|
    ensures r.1 == creds.(chain := creds.chain + TakenCerts(ents))
    ensures r.0.Some? ==>
      r.0.value == (if ents[Taken(ents)].DerJunk? then "d2i_X509_bio() failed" else "SSL_add0_chain_cert() failed")
    decreases |ents|
  {
    if |ents| == 0 then (None, creds)
    else match ents[0]
      case DerJunk => (Some("d2i_X509_bio() failed"), creds)
      case DerItem(d, ok) =>
        if !ok then (Some("SSL_add0_chain_cert() failed"), creds)
        else
          var r := AddChain(creds.(chain := creds.chain + [d]), ents[1..]);
          r
  }

  /** `ngx_http_lua_ffi_ssl_set_der_certificate`: the first entity becomes the
      leaf, the rest of the buffer the chain. `bioOk` says whether the memory
      BIO could be created. */
  function SetDerCertificate(r: Request, bioOk: bool, ents: seq<DerEntity>): (f: Ffi<Credentials>)
    ensures HandshakeOf(r).Failure? ==> f == Ffi(NgxError, None, Some(HandshakeOf(r).error))
    ensures HandshakeOf(r).Success? ==> f.value.Some?
    // success: the leaf is the first entity and the chain grows by all the others, in order
    ensures f.rc == NgxOk <==>
      && HandshakeOf(r).Success? && bioOk && 0 < |ents|
      && ents[0].DerItem? && ents[0].accepted && Taken(ents[1..]) == |ents| - 1
    ensures f.rc == NgxOk ==>
      var creds := HandshakeOf(r).value.creds;
      && f.value.value == creds.(leaf := Some(ents[0].der), chain := creds.chain + TakenCerts(ents[1..]))
      && |TakenCerts(ents[1..])| == |ents| - 1
    ensures f.rc != NgxOk ==> f.rc == NgxError && f.err.Some?
    // a leaf that does not parse or is refused changes nothing
    ensures HandshakeOf(r).Success? && (!bioOk || |ents| == 0 || !(ents[0].DerItem? && ents[0].accepted)) ==>
      f.value.value == HandshakeOf(r).value.creds
  {
    match HandshakeOf(r)
    case Failure(e) => Ffi(NgxError, None, Some(e))
    case Success(h) =>
      if !bioOk then Ffi(NgxError, Some(h.creds), Some(" BIO_new_mem_buf() failed"))
      else if |ents| == 0 || ents[0].DerJunk? then Ffi(NgxError, Some(h.creds), Some(" d2i_X509_bio() failed"))
      else if !ents[0].accepted then Ffi(NgxError, Some(h.creds), Some(" SSL_use_certificate() failed"))
      else
        var (err, creds) := AddChain(h.creds.(leaf := Some(ents[0].der)), ents[1..]);
        if err.None? then Ffi(NgxOk, Some(creds), None) else Ffi(NgxError, Some(creds), err)
  }

  /** A chain entry that fails after the leaf was taken leaves the leaf and the
      earlier chain entries installed: the installation is not atomic. */
  lemma PartialChainStays(r: Request, ents: seq<DerEntity>)
    requires HandshakeOf(r).Success?
    requires 0 < |ents| && ents[0].DerItem? && ents[0].accepted
    requires Taken(ents[1..]) < |ents| - 1
    ensures var f := SetDerCertificate(r, true, ents);
      var creds := HandshakeOf(r).value.creds;
      && f.rc == NgxError
      && f.value.value.leaf == Some(ents[0].der)
      && f.value.value.chain == creds.chain + TakenCerts(ents[1..])
  {
  }

  /** `ngx_http_lua_ffi_ssl_set_der_private_key`: the first entity becomes the
      handshake's private key, replacing any earlier one. */
  function SetDerPrivateKey(r: Request, bioOk: bool, ents: seq<DerEntity>): (f: Ffi<Credentials>)
    ensures HandshakeOf(r).Failure? ==> f == Ffi(NgxError, None, Some(HandshakeOf(r).error))
    ensures f.rc == NgxOk || f.rc == NgxError
    ensures f.rc == NgxOk <==> HandshakeOf(r).Success? && bioOk && 0 < |ents| && ents[0].DerItem? && ents[0].accepted
    ensures f.rc == NgxOk ==> f.value == Some(HandshakeOf(r).value.creds.(key := Some(ents[0].der)))
    ensures f.rc == NgxError && HandshakeOf(r).Success? ==> f.value == Some(HandshakeOf(r).value.creds) && f.err.Some?
  {
    match HandshakeOf(r)
    case Failure(e) => Ffi(NgxError, None, Some(e))
    case Success(h) =>
      if !bioOk then Ffi(NgxError, Some(h.creds), Some("BIO_new_mem_buf() failed"))
      else if |ents| == 0 || ents[0].DerJunk? then Ffi(NgxError, Some(h.creds), Some("d2i_PrivateKey_bio() failed"))
      else if !ents[0].accepted then Ffi(NgxError, Some(h.creds), Some("SSL_CTX_use_PrivateKey() failed"))
      else Ffi(NgxOk, Some(h.creds.(key := Some(ents[0].der))), None)
  }

  /** `ngx_http_lua_ffi_ssl_clear_certs`: drops every installed certificate
      (and, through `SSL_certs_clear`, the key with them). */
  function ClearCerts(r: Request): (f: Ffi<Credentials>)
    ensures f.rc == NgxOk <==> HandshakeOf(r).Success?
    ensures f.rc == NgxOk ==> f.value == Some(Credentials(None, [], None))
    ensures f.rc != NgxOk ==> f == Ffi(NgxError, None, Some(HandshakeOf(r).error))
  {
    match HandshakeOf(r)
    case Failure(e) => Ffi(NgxError, None, Some(e))
    case Success(_) => Ffi(NgxOk, Some(Credentials(None, [], None)), None)
  }

  /** Clearing and then installing a chain leaves exactly that chain: the
      leaf is the first entity and the chain the remaining ones. */
  lemma ClearThenInstall(r: Request, ents: seq<DerEntity>)
    requires ClearCerts(r).rc == NgxOk
    requires 0 < |ents| && Taken(ents) == |ents|
    ensures var cleared := WithHandshake(r, HandshakeOf(r).value.(creds := ClearCerts(r).value.value));
      var f := SetDerCertificate(cleared, true, ents);
      f.rc == NgxOk && f.value.value == Credentials(Some(ents[0].der), TakenCerts(ents[1..]), None)
  {
    assert Taken(ents[1..]) == |ents| - 1;
  }
}

=== FILE: core.dfy ===
/** Shared vocabulary: nginx return codes, bytes, C-level integer and string
    conventions, and the Option/Result wrappers used for absent values and
    error returns. */
module NgxCore {

  /** An octet of a DER encoding, a socket address or a C string. */
  newtype byte = x: int | 0 <= x < 0x100

  /* nginx core return codes (ngx_core.h, not part of this model). */
  const NgxOk: int := 0
  const NgxError: int := -1
  const NgxBusy: int := -3
  const NgxDeclined: int := -5

  /** 2^64: a `size_t` holds values below this bound. */
  const SizeModulus: int := 0x1_0000_0000_0000_0000

  datatype Option<T> = None | Some(value: T) {
    function GetOr(default: T): T {
      match this
      case Some(v) => v
      case None => default
    }
  }

  /** An operation that either yields a value or fails with a message. */
  datatype Result<T> = Success(value: T) | Failure(error: string)

  /** The value a C `int` takes when it is assigned to a 64-bit `size_t`:
      negative values wrap around to the top of the range. */
  function ToSize(x: int): (r: nat)
    ensures r < SizeModulus
    ensures 0 <= x < SizeModulus ==> r == x
    ensures -SizeModulus <= x < 0 ==> r == x + SizeModulus
  {
    x % SizeModulus
  }

  /** `strlen`: the number of bytes before the first NUL; a buffer without a
      NUL is measured to its end. */
  function CStrLen(s: seq<byte>): (n: nat)
    ensures n <= |s|
    ensures forall i :: 0 <= i < n ==> s[i] != 0
    ensures n < |s| ==> s[n] == 0
  {
    if |s| == 0 || s[0] == 0 then 0 else 1 + CStrLen(s[1..])
  }
}

=== FILE: pem_to_der.dfy ===
/** `ngx_http_lua_ffi_cert_pem_to_der`: a PEM bundle (one leaf, then any number
    of chain certificates) becomes the concatenation of their DER encodings.
    The PEM reader and the DER encoder are opaque: the bundle is seen as the
    results successive reads would give. */
module PemChain {
  import opened NgxCore

  /** The result of one PEM read followed by `i2d_X509` on what was read. */
  datatype PemRead =
    | PemCert(der: seq<byte>)  // a certificate, and its DER encoding
    | PemUnencodable           // a certificate that `i2d_X509` fails to encode
    | NoStartLine              // no further PEM block: the clean end of input
    | PemError                 // any other read failure

  /** The value returned (the DER length in total, or NGX_ERROR), the bytes
      written to the output buffer, and the message left in `*err`. */
  datatype Conversion = Conversion(rc: int, der: seq<byte>, err: Option<string>)

  /** The read at position `i`; reading past the given results meets the end
      of input. */
  function ReadAt(pems: seq<PemRead>, i: nat): PemRead {
    if i < |pems| then pems[i] else NoStartLine
  }

  /** Reading the rest of the chain: whether it stopped cleanly, the DER bytes
      appended before it stopped, and the message on failure. */
  datatype Scan = Scan(ok: bool, der: seq<byte>, err: Option<string>)

  function ScanChain(pems: seq<PemRead>): (s: Scan)
    ensures s.ok <==> s.err.None?
  {
    match ReadAt(pems, 0)
    case NoStartLine => Scan(true, [], None)
    case PemError => Scan(false, [], Some("PEM_read_bio_X509() failed"))
    case PemUnencodable => Scan(false, [], Some("i2d_X509() failed"))
    case PemCert(d) =>
      var rest := ScanChain(pems[1..]);
      Scan(rest.ok, d + rest.der, rest.err)
  }

  /** The conversion. `bioOk` says whether the memory BIO could be created.
      A successful conversion returns the number of DER bytes written, leaves
      `*err` alone and starts with the leaf's encoding; without a BIO or a
      leaf certificate nothing is written. */
  function PemToDer(bioOk: bool, pems: seq<PemRead>): (c: Conversion)
    ensures c.rc != NgxError ==> c.rc == |c.der| && c.err.None?
    ensures bioOk && ReadAt(pems, 0).PemCert? ==> ReadAt(pems, 0).der <= c.der
    ensures !(bioOk && ReadAt(pems, 0).PemCert?) ==> c.rc == NgxError && c.der == []
    ensures c.rc == NgxError && c.err.None? ==> bioOk && ReadAt(pems, 0).PemUnencodable?
  {
    if !bioOk then Conversion(NgxError, [], Some("BIO_new_mem_buf() failed"))
    else match ReadAt(pems, 0)
      case PemCert(d) =>
        var rest := ScanChain(pems[1..]);
        if rest.ok then Conversion(|d| + |rest.der|, d + rest.der, None)
        else Conversion(NgxError, d + rest.der, rest.err)
      case PemUnencodable => Conversion(NgxError, [], None)
      case _ => Conversion(NgxError, [], Some("PEM_read_bio_X509_AUX() failed"))
  }

  /* An independent reading of the same bundle: the run of certificates at the
     front and the read that ends it. */

  /** How many reads at the front are certificates. */
  function CertRun(pems: seq<PemRead>): (n: nat)
    ensures n <= |pems|
    ensures forall i :: 0 <= i < n ==> pems[i].PemCert?
    ensures n < |pems| ==> !pems[n].PemCert?
  {
    if |pems| == 0 || !pems[0].PemCert? then 0 else 1 + CertRun(pems[1..])
  }

  /** The DER encodings of a run of certificates, back to back. */
  function Flatten(pems: seq<PemRead>): (der: seq<byte>)
    requires forall i :: 0 <= i < |pems| ==> pems[i].PemCert?
  {
    if |pems| == 0 then [] else pems[0].der + Flatten(pems[1..])
  }

  /** The sum of the DER lengths of a run of certificates. */
  function TotalLength(pems: seq<PemRead>): (n: nat)
    requires forall i :: 0 <= i < |pems| ==> pems[i].PemCert?
  {
    if |pems| == 0 then 0 else |pems[0].der| + TotalLength(pems[1..])
  }

  lemma {:induction false} FlattenLength(pems: seq<PemRead>)
    requires forall i :: 0 <= i < |pems| ==> pems[i].PemCert?
    ensures |Flatten(pems)| == TotalLength(pems)
    decreases |pems|
  {
    if |pems| > 0 {
      FlattenLength(pems[1..]);
    }
  }

  /** Scanning writes the certificates at the front, and succeeds exactly when
      the read that ends them is the clean end of input. */
  lemma {:induction false} ScanChainMeaning(pems: seq<PemRead>)
    ensures var n := CertRun(pems);
      && ScanChain(pems).der == Flatten(pems[..n])
      && (ScanChain(pems).ok <==> ReadAt(pems, n) == NoStartLine)
    decreases |pems|
  {
    var n := CertRun(pems);
    if |pems| > 0 && pems[0].PemCert? {
      ScanChainMeaning(pems[1..]);
      assert pems[1..][..n - 1] == pems[..n][1..];
    } else {
      assert pems[..n] == [];
    }
  }

  /** The conversion succeeds exactly when the bundle opens with an encodable
      certificate and the certificates after it run up to the clean end of
      input; it then returns the sum of their DER lengths, and the buffer holds
      their encodings in order. Every other outcome is NGX_ERROR. */
  lemma PemToDerMeaning(bioOk: bool, pems: seq<PemRead>)
    ensures var c := PemToDer(bioOk, pems);
      && (c.rc != NgxError <==>
            bioOk && ReadAt(pems, 0).PemCert? && ReadAt(pems[1..], CertRun(pems[1..])) == NoStartLine)
      && (c.rc != NgxError ==>
            && 0 < |pems|
            && c.der == Flatten(pems[..1 + CertRun(pems[1..])])
            && c.rc == |c.der| == TotalLength(pems[..1 + CertRun(pems[1..])]))
  {
    var c := PemToDer(bioOk, pems);
    if bioOk && ReadAt(pems, 0).PemCert? {
      var n := CertRun(pems[1..]);
      ScanChainMeaning(pems[1..]);
      var front := pems[..1 + n];
      assert front[1..] == pems[1..][..n];
      FlattenLength(front);
    }
  }

  /** The conversion as a loop over successive pems, appending each encoding
      to the output buffer and adding its length to the running total. */
  method ConvertPem(bioOk: bool, pems: seq<PemRead>) returns (rc: int, der: seq<byte>, err: Option<string>)
    ensures Conversion(rc, der, err) == PemToDer(bioOk, pems)
    ensures rc != NgxError ==> rc == |der|
  {
    der, err := [], None;
    if !bioOk {
      return NgxError, der, Some("BIO_new_mem_buf() failed");
    }
    var first := ReadAt(pems, 0);
    if !first.PemCert? {
      if first.PemUnencodable? {
        return NgxError, der, None;
      }
      return NgxError, der, Some("PEM_read_bio_X509_AUX() failed");
    }
    var total := |first.der|;
    der := first.der;
    var i := 1;
    while true
      invariant 1 <= i <= |pems|
      invariant total == |der|
      invariant first.der <= der
      invariant ScanChain(pems[1..]) ==
                var rest := ScanChain(pems[i..]); Scan(rest.ok, der[|first.der|..] + rest.der, rest.err)
      decreases |pems| - i
    {
      var next := ReadAt(pems, i);
      assert i < |pems| ==> pems[i..][1..] == pems[i + 1..];
      if next.NoStartLine? {
        break;
      }
      if next.PemError? {
        return NgxError, der, Some("PEM_read_bio_X509() failed");
      }
      if next.PemUnencodable? {
        return NgxError, der, Some("i2d_X509() failed");
      }
      der := der + next.der;
      total := total + |next.der|;
      i := i + 1;
    }
    return total, der, None;
  }
}

=== FILE: size_probe.dfy ===
/** The output-buffer convention shared by the three issuers (RSA key
    generation, CSR construction, CSR signing): the DER length is asked for
    first; if it does not fit in the caller's `*out_size` the call reports
    NGX_BUSY with the required length and writes nothing, otherwise it writes
    the encoding and reports the written length. The encoders themselves
    (`i2d_PrivateKey`, `i2d_X509_REQ`, `i2d_X509`) are opaque here. */
module SizeProbe {
  import opened NgxCore

  /** What one call of an `i2d_*` encoder does: it writes (or, when only asked
      for the length, would write) `bytes` and returns their count, or it fails
      and returns `-code`, which is zero or negative. */
  datatype I2d = Encoded(bytes: seq<byte>) | EncodeFailed(code: nat) {
    function Ret(): int {
      match this
      case Encoded(b) => |b|
      case EncodeFailed(k) => -(k as int)
    }
  }

  /** The return code, the caller's buffer after the call, the value left in
      `*out_size`, and the message left in `*err` (None when it is not set). */
  datatype ProbeOut = ProbeOut(rc: int, out: seq<byte>, outSize: nat, err: Option<string>)

  const TooSmall: string := "output buffer too small"

  /** An encoder returns a C `int`. */
  predicate FitsInt(e: I2d) {
    -0x8000_0000 <= e.Ret() < 0x8000_0000
  }

  /** Both calls return a C `int`, and the two calls of one encoder on one
      object agree when both succeed. */
  predicate Consistent(probe: I2d, write: I2d) {
    && FitsInt(probe) && FitsInt(write)
    && (probe.Encoded? && write.Encoded? ==> write == probe)
  }

  /** The caller hands in a buffer holding at least `*out_size` bytes. */
  predicate ValidBuffer(out: seq<byte>, outSize: nat) {
    outSize <= |out| && outSize < SizeModulus
  }

  /** The size-probe tail, with the encoder's return value checked for every
      failure it can report: `probe` is the length query, `write` the call that
      fills the buffer, and the two messages are what `*err` receives when each
      of them fails. */
  function ProbeTail(probe: I2d, write: I2d, out: seq<byte>, outSize: nat,
                     probeFail: string, writeFail: string): (r: ProbeOut)
    requires Consistent(probe, write) && ValidBuffer(out, outSize)
    ensures r.rc == NgxOk || r.rc == NgxBusy || r.rc == NgxError
    ensures r.rc == NgxBusy <==> probe.Ret() > 0 && probe.Ret() > outSize
    ensures r.rc == NgxBusy ==> r.outSize == probe.Ret() && r.out == out && r.err == Some(TooSmall)
    ensures r.rc == NgxOk <==> 0 < probe.Ret() <= outSize && write.Ret() > 0
    ensures r.rc == NgxOk ==>
      && probe.Encoded? && r.outSize == |probe.bytes| <= outSize
      && |r.out| == |out|
      && probe.bytes <= r.out
      && (forall i :: r.outSize <= i < |out| ==> r.out[i] == out[i])
    ensures r.rc == NgxError ==> r.out == out && r.outSize == outSize && r.err.Some?
  {
    if probe.Ret() <= 0 then ProbeOut(NgxError, out, outSize, Some(probeFail))
    else if probe.Ret() > outSize then ProbeOut(NgxBusy, out, probe.Ret(), Some(TooSmall))
    else if write.Ret() <= 0 then ProbeOut(NgxError, out, outSize, Some(writeFail))
    else ProbeOut(NgxOk, write.bytes + out[|write.bytes|..], |write.bytes|, None)
  }

  /** The size-probe tail as the source writes it: the encoder's `int` result
      is stored in a `size_t`, so a negative error return wraps to a huge
      length that the `len <= 0` test does not catch. */
  function ProbeTailAsWritten(probe: I2d, write: I2d, out: seq<byte>, outSize: nat,
                              probeFail: string, writeFail: string): (r: ProbeOut)
    requires Consistent(probe, write) && ValidBuffer(out, outSize)
    ensures r.rc == NgxOk || r.rc == NgxBusy || r.rc == NgxError
    ensures r.outSize < SizeModulus
    ensures r.rc == NgxBusy ==> r.outSize > outSize && r.out == out
  {
    var len := ToSize(probe.Ret());
    if len <= 0 then ProbeOut(NgxError, out, outSize, Some(probeFail))
    else if len > outSize then ProbeOut(NgxBusy, out, len, Some(TooSmall))
    else
      var written := ToSize(write.Ret());
      if written <= 0 then ProbeOut(NgxError, out, outSize, Some(writeFail))
      else if write.Encoded? then ProbeOut(NgxOk, write.bytes + out[|write.bytes|..], written, None)
      else ProbeOut(NgxOk, out, written, None)
  }

  /** When no encoder call returns a negative value the two readings agree. */
  lemma AsWrittenAgreesWithoutNegatives(probe: I2d, write: I2d, out: seq<byte>, outSize: nat,
                                        probeFail: string, writeFail: string)
    requires Consistent(probe, write) && ValidBuffer(out, outSize)
    requires probe.Ret() >= 0 && write.Ret() >= 0
    ensures ProbeTailAsWritten(probe, write, out, outSize, probeFail, writeFail)
         == ProbeTail(probe, write, out, outSize, probeFail, writeFail)
  {
  }

  /** A length query that fails with -1 is reported as "buffer too small"
      asking for 2^64 - 1 bytes, where an error is meant. */
  lemma ProbeFailureReportedAsBusy()
    ensures ProbeTailAsWritten(EncodeFailed(1), EncodeFailed(1), [], 0, "p", "w")
         == ProbeOut(NgxBusy, [], SizeModulus - 1, Some(TooSmall))
    ensures ProbeTail(EncodeFailed(1), EncodeFailed(1), [], 0, "p", "w").rc == NgxError
  {
  }

  /** A writing call that fails with -1 after a successful length query is
      reported as success with `*out_size` = 2^64 - 1, far beyond the buffer,
      where an error is meant. */
  lemma WriteFailureReportedAsOk()
    ensures var r := ProbeTailAsWritten(Encoded([7]), EncodeFailed(1), [0], 1, "p", "w");
      r.rc == NgxOk && r.outSize == SizeModulus - 1 && r.outSize > |r.out|
    ensures ProbeTail(Encoded([7]), EncodeFailed(1), [0], 1, "p", "w").rc == NgxError
  {
  }

  /** The size-probe tail over the caller's buffer: the encoding is copied in
      byte by byte. */
  method WriteProbed(probe: I2d, write: I2d, out: seq<byte>, outSize: nat,
                     probeFail: string, writeFail: string)
    returns (rc: int, buf: seq<byte>, size: nat, err: Option<string>)
    requires Consistent(probe, write) && ValidBuffer(out, outSize)
    ensures ProbeOut(rc, buf, size, err) == ProbeTail(probe, write, out, outSize, probeFail, writeFail)
    ensures rc == NgxOk ==> buf[..size] == probe.bytes && buf[size..] == out[size..]
  {
    buf := out;
    size := outSize;
    err := None;
    if probe.Ret() <= 0 {
      return NgxError, buf, size, Some(probeFail);
    }
    if probe.Ret() > outSize {
      return NgxBusy, buf, probe.Ret(), Some(TooSmall);
    }
    if write.Ret() <= 0 {
      return NgxError, buf, size, Some(writeFail);
    }
    var bytes := write.bytes;
    var i := 0;
    while i < |bytes|
      invariant 0 <= i <= |bytes| <= |out|
      invariant |buf| == |out|
      invariant buf[..i] == bytes[..i]
      invariant buf[i..] == out[i..]
    {
      buf := buf[i := bytes[i]];
      i := i + 1;
    }
    assert buf[..|bytes|] == bytes;
    assert buf == bytes + out[|bytes|..];
    rc, size := NgxOk, |bytes|;
  }

  /** A setup failure before the encoding (key generation, request building,
      loading the CA material, signing ...) is reported with its message, and
      the buffer and `*out_size` are left alone. Without one, the call answers
      by the size-probe protocol. */
  function Issue(setupError: Option<string>, probe: I2d, write: I2d, out: seq<byte>, outSize: nat,
                 probeFail: string, writeFail: string): (r: ProbeOut)
    requires Consistent(probe, write) && ValidBuffer(out, outSize)
    ensures r.rc == NgxOk || r.rc == NgxBusy || r.rc == NgxError
    ensures setupError.Some? ==> r.rc == NgxError && r.err == setupError
    ensures r.rc == NgxBusy <==> setupError.None? && probe.Ret() > 0 && probe.Ret() > outSize
    ensures r.rc == NgxBusy ==> r.outSize == probe.Ret() && r.out == out && r.err == Some(TooSmall)
    ensures r.rc == NgxOk <==> setupError.None? && 0 < probe.Ret() <= outSize && write.Ret() > 0
    ensures r.rc == NgxOk ==>
      && probe.Encoded? && r.outSize == |probe.bytes| <= outSize
      && |r.out| == |out|
      && probe.bytes <= r.out
      && (forall i :: r.outSize <= i < |out| ==> r.out[i] == out[i])
      && r.err.None?
    ensures r.rc == NgxError ==> r.out == out && r.outSize == outSize && r.err.Some?
    ensures r.rc == NgxError && setupError.None? ==>
      r.err == Some(if probe.Ret() <= 0 then probeFail else writeFail)
  {
    if setupError.Some? then ProbeOut(NgxError, out, outSize, setupError)
    else ProbeTail(probe, write, out, outSize, probeFail, writeFail)
  }

  /** `ngx_http_lua_ffi_ssl_rsa_generate_key`: the DER private key through the
      size probe. */
  function RsaGenerateKey(setupError: Option<string>, probe: I2d, write: I2d,
                          out: seq<byte>, outSize: nat): (r: ProbeOut)
    requires Consistent(probe, write) && ValidBuffer(out, outSize)
    ensures r.rc == NgxOk || r.rc == NgxBusy || r.rc == NgxError
    ensures r.rc == NgxOk <==> setupError.None? && 0 < probe.Ret() <= outSize && write.Ret() > 0
    ensures r.rc == NgxOk ==>
      && probe.Encoded? && r.outSize == |probe.bytes| && |r.out| == |out| && probe.bytes <= r.out
      && (forall i :: r.outSize <= i < |out| ==> r.out[i] == out[i])
    ensures r.rc == NgxBusy <==> setupError.None? && probe.Ret() > 0 && probe.Ret() > outSize
    ensures r.rc == NgxBusy ==> probe.Encoded? && r.outSize == |probe.bytes| > outSize && r.out == out
    ensures r.rc == NgxError ==> r.out == out && r.outSize == outSize
    ensures setupError.Some? ==> r.err == setupError
    ensures r.rc == NgxError && setupError.None? ==> r.err == Some("i2d_PrivateKey() failed")
  {
    Issue(setupError, probe, write, out, outSize, "i2d_PrivateKey() failed", "i2d_PrivateKey() failed")
  }

  /** `ngx_http_lua_ffi_ssl_generate_certificate_sign_request`: the DER
      request through the size probe. */
  function GenerateCsr(setupError: Option<string>, probe: I2d, write: I2d,
                       out: seq<byte>, outSize: nat): (r: ProbeOut)
    requires Consistent(probe, write) && ValidBuffer(out, outSize)
    ensures r.rc == NgxOk || r.rc == NgxBusy || r.rc == NgxError
    ensures r.rc == NgxOk <==> setupError.None? && 0 < probe.Ret() <= outSize && write.Ret() > 0
    ensures r.rc == NgxOk ==>
      && probe.Encoded? && r.outSize == |probe.bytes| && |r.out| == |out| && probe.bytes <= r.out
      && (forall i :: r.outSize <= i < |out| ==> r.out[i] == out[i])
    ensures r.rc == NgxBusy <==> setupError.None? && probe.Ret() > 0 && probe.Ret() > outSize
    ensures r.rc == NgxBusy ==> probe.Encoded? && r.outSize == |probe.bytes| > outSize && r.out == out
    ensures r.rc == NgxError ==> r.out == out && r.outSize == outSize
    ensures setupError.Some? ==> r.err == setupError
    ensures r.rc == NgxError && setupError.None? ==> r.err == Some("i2d_X509_REQ() failed")
  {
    Issue(setupError, probe, write, out, outSize, "i2d_X509_REQ() failed", "i2d_X509_REQ() failed")
  }

  /** `ngx_http_lua_ffi_ssl_sign_certificate_sign_request`: the DER
      certificate through the size probe. A failing write reports the request
      encoder's name, as the source does. */
  function SignCsr(setupError: Option<string>, probe: I2d, write: I2d,
                   out: seq<byte>, outSize: nat): (r: ProbeOut)
    requires Consistent(probe, write) && ValidBuffer(out, outSize)
    ensures r.rc == NgxOk || r.rc == NgxBusy || r.rc == NgxError
    ensures r.rc == NgxOk <==> setupError.None? && 0 < probe.Ret() <= outSize && write.Ret() > 0
    ensures r.rc == NgxOk ==>
      && probe.Encoded? && r.outSize == |probe.bytes| && |r.out| == |out| && probe.bytes <= r.out
      && (forall i :: r.outSize <= i < |out| ==> r.out[i] == out[i])
    ensures r.rc == NgxBusy <==> setupError.None? && probe.Ret() > 0 && probe.Ret() > outSize
    ensures r.rc == NgxBusy ==> probe.Encoded? && r.outSize == |probe.bytes| > outSize && r.out == out
    ensures r.rc == NgxError ==> r.out == out && r.outSize == outSize
    ensures setupError.Some? ==> r.err == setupError
    ensures r.rc == NgxError && setupError.None? ==>
      r.err == Some(if probe.Ret() <= 0 then "i2d_X509() failed" else "i2d_X509_REQ() failed")
  {
    Issue(setupError, probe, write, out, outSize, "i2d_X509() failed", "i2d_X509_REQ() failed")
  }

  /** The two-call convention: after a NGX_BUSY answer, calling again with a
      buffer of exactly the reported size writes the whole encoding, provided
      the second call encodes the same bytes as the first. */
  lemma {:induction false} RetryWithReportedSizeSucceeds(probe: I2d, out: seq<byte>, outSize: nat,
                                                         bigger: seq<byte>)
    requires FitsInt(probe) && ValidBuffer(out, outSize)
    requires ProbeTail(probe, probe, out, outSize, "p", "w").rc == NgxBusy
    requires |bigger| == ProbeTail(probe, probe, out, outSize, "p", "w").outSize
    ensures ValidBuffer(bigger, |bigger|)
    ensures var r := ProbeTail(probe, probe, bigger, |bigger|, "p", "w");
      r.rc == NgxOk && r.out == probe.bytes && r.outSize == |bigger|
  {
    var r := ProbeTail(probe, probe, bigger, |bigger|, "p", "w");
    assert r.out[..r.outSize] == r.out;
  }

  /** Key generation runs again on every call, so the retry encodes a new key
      whose DER may be longer than the one reported: a 2-byte key answers
      NGX_BUSY asking for 2 bytes, and the retry with a 2-byte buffer meets a
      3-byte key and answers NGX_BUSY again. */
  lemma RegeneratedKeyMayNotFit()
    ensures var first := RsaGenerateKey(None, Encoded([1, 2]), Encoded([1, 2]), [0], 1);
      first.rc == NgxBusy && first.outSize == 2
    ensures RsaGenerateKey(None, Encoded([1, 2, 3]), Encoded([1, 2, 3]), [0, 0], 2).rc == NgxBusy
  {
  }
}

=== FILE: ssl_session.dfy ===
/** The request-to-SSL guard every FFI entry point begins with, and the two
    read-only accessors on the handshake: the raw local (server) address and the
    SNI server name. */
module SslSession {
  import opened NgxCore

  /* Address families (Linux values of the socket headers). */
  const AfUnix: int := 1
  const AfInet: int := 2
  const AfInet6: int := 10

  /** `offsetof(struct sockaddr_un, sun_path)`: the family field comes first. */
  const SunPathOffset: nat := 2

  type Ipv4Bytes = s: seq<byte> | |s| == 4 witness [0, 0, 0, 0]
  type Ipv6Bytes = s: seq<byte> | |s| == 16 witness [0, 0, 0, 0, 0, 0, 0, 0, 0, 0, 0, 0, 0, 0, 0, 0]

  /** The connection's local socket address, by the layout the code reads it
      with. Every family other than AF_INET6 and AF_UNIX is read as a
      `sockaddr_in`. */
  datatype Sockaddr =
    | Inet6(addr6: Ipv6Bytes)                  // sin6_addr
    | Unix(socklen: nat, sunPath: seq<byte>)   // local_socklen, and the sun_path bytes
    | Inet(addr4: Ipv4Bytes)                   // sin_addr

  /** Certificates and key installed on the handshake so far (DER bytes). */
  datatype Credentials = Credentials(leaf: Option<seq<byte>>, chain: seq<seq<byte>>, key: Option<seq<byte>>)

  /** The OpenSSL connection object, with what the accessors read from it:
      the SNI host name as a C string (None when the client sent none), the
      owning connection's local address (None when looking it up fails), and
      the installed credentials. */
  datatype Handshake = Handshake(serverName: Option<seq<byte>>, local: Option<Sockaddr>, creds: Credentials)

  /** `r->connection->ssl`: nginx's SSL wrapper; its `connection` is the OpenSSL object. */
  datatype NgxSsl = NgxSsl(connection: Option<Handshake>)
  /** `r->connection`. */
  datatype ReqConnection = ReqConnection(ssl: Option<NgxSsl>)
  /** The (fake) request the Lua code holds. */
  datatype Request = Request(connection: Option<ReqConnection>)

  /** What an FFI call returns: its return code, the value it produces (None
      when there is none), and the message left in `*err` (None when it is not
      set). For the accessors the value is what the call hands back through
      its out-parameters; for the installers it is the handshake's credentials
      after the call. */
  datatype Ffi<T> = Ffi(rc: int, value: Option<T>, err: Option<string>)

  /** The guard: a request without a connection or without SSL is a "bad
      request"; SSL without an OpenSSL connection object is a "bad ssl conn". */
  function HandshakeOf(r: Request): (g: Result<Handshake>)
    ensures g.Failure? <==>
      r.connection.None? || r.connection.value.ssl.None? || r.connection.value.ssl.value.connection.None?
    ensures g.Failure? ==> g.error == "bad request" || g.error == "bad ssl conn"
    ensures r.connection.None? || r.connection.value.ssl.None? ==> g == Failure("bad request")
    ensures g.Failure? && r.connection.Some? && r.connection.value.ssl.Some? ==> g.error == "bad ssl conn"
    ensures g.Success? ==> g.value == r.connection.value.ssl.value.connection.value
  {
    match r.connection
    case None => Failure("bad request")
    case Some(c) =>
      match c.ssl
      case None => Failure("bad request")
      case Some(s) =>
        match s.connection
        case None => Failure("bad ssl conn")
        case Some(h) => Success(h)
  }

  /** The same request, carrying an updated OpenSSL connection object. */
  function WithHandshake(r: Request, h: Handshake): (r': Request)
    requires HandshakeOf(r).Success?
    ensures HandshakeOf(r') == Success(h)
  {
    Request(Some(ReqConnection(Some(NgxSsl(Some(h))))))
  }

  /** The raw address handed back: the bytes `*addr` points at (`*addrlen`
      of them) and `*addrtype`. */
  datatype RawAddr = RawAddr(addr: seq<byte>, addrType: int)

  /** Reading the raw address out of a local socket address. A Unix-domain
      address too short to hold `sun_path` yields the empty string. */
  function AddrOf(sa: Sockaddr): (a: RawAddr)
    ensures sa.Inet6? ==> a.addrType == AfInet6 && |a.addr| == 16 && a.addr == sa.addr6
    ensures sa.Inet? ==> a.addrType == AfInet && |a.addr| == 4 && a.addr == sa.addr4
    ensures sa.Unix? ==> a.addrType == AfUnix && a.addr <= sa.sunPath && (forall i :: 0 <= i < |a.addr| ==> a.addr[i] != 0)
    ensures sa.Unix? && sa.socklen <= SunPathOffset ==> a.addr == []
    ensures sa.Unix? && sa.socklen > SunPathOffset ==> |a.addr| == CStrLen(sa.sunPath)
  {
    match sa
    case Inet6(a6) => RawAddr(a6, AfInet6)
    case Unix(len, path) =>
      if len <= SunPathOffset then RawAddr([], AfUnix) else RawAddr(path[..CStrLen(path)], AfUnix)
    case Inet(a4) => RawAddr(a4, AfInet)
  }

  /** `ngx_http_lua_ffi_ssl_raw_server_addr` as the source writes it: when the
      local address cannot be looked up it returns 0, which is NGX_OK, without
      writing any output. */
  function RawServerAddrAsWritten(r: Request): (f: Ffi<RawAddr>)
    ensures HandshakeOf(r).Failure? ==> f == Ffi(NgxError, None, Some(HandshakeOf(r).error))
    ensures HandshakeOf(r).Success? ==> f.rc == NgxOk
  {
    match HandshakeOf(r)
    case Failure(e) => Ffi(NgxError, None, Some(e))
    case Success(h) =>
      match h.local
      case None => Ffi(0, None, None)
      case Some(sa) => Ffi(NgxOk, Some(AddrOf(sa)), None)
  }

  /** A failed address lookup is indistinguishable from success by its return
      code, though nothing was written. */
  lemma LookupFailureLooksLikeSuccess()
    ensures var r := Request(Some(ReqConnection(Some(NgxSsl(Some(Handshake(None, None, Credentials(None, [], None))))))));
      RawServerAddrAsWritten(r).rc == NgxOk && RawServerAddrAsWritten(r).value.None?
    ensures var r := Request(Some(ReqConnection(Some(NgxSsl(Some(Handshake(None, None, Credentials(None, [], None))))))));
      RawServerAddrAsWritten(r).rc != RawServerAddr(r).rc
  {
  }

  /** `ngx_http_lua_ffi_ssl_raw_server_addr`, reporting a failed lookup of the
      local address as NGX_ERROR so that NGX_OK always comes with an address. */
  function RawServerAddr(r: Request): (f: Ffi<RawAddr>)
    ensures f.rc == NgxOk || f.rc == NgxError
    ensures f.rc == NgxOk <==> f.value.Some?
    ensures f.rc == NgxOk <==> HandshakeOf(r).Success? && HandshakeOf(r).value.local.Some?
    ensures f.rc == NgxOk ==> f.value.value == AddrOf(HandshakeOf(r).value.local.value)
    ensures HandshakeOf(r).Failure? ==> f.err == Some(HandshakeOf(r).error)
  {
    match HandshakeOf(r)
    case Failure(e) => Ffi(NgxError, None, Some(e))
    case Success(h) =>
      match h.local
      case None => Ffi(NgxError, None, Some("failed to fetch the local socket address"))
      case Some(sa) => Ffi(NgxOk, Some(AddrOf(sa)), None)
  }

  /** The fixed version and the source agree whenever the lookup succeeds. */
  lemma RawServerAddrAgreesOnLookup(r: Request)
    requires HandshakeOf(r).Success? ==> HandshakeOf(r).value.local.Some?
    ensures RawServerAddr(r) == RawServerAddrAsWritten(r)
  {
  }

  /** `ngx_http_lua_ffi_ssl_server_name`: NGX_OK with the name (its length is
      `*namelen`) when the client sent SNI, NGX_DECLINED when it did not. */
  function ServerName(r: Request): (f: Ffi<seq<byte>>)
    ensures f.rc == NgxOk || f.rc == NgxDeclined || f.rc == NgxError
    ensures f.rc == NgxError <==> HandshakeOf(r).Failure?
    ensures f.rc == NgxDeclined <==> HandshakeOf(r).Success? && HandshakeOf(r).value.serverName.None?
    ensures HandshakeOf(r).Failure? ==> f.err == Some(HandshakeOf(r).error)
    ensures f.rc != NgxError ==> f.err.None?
    ensures f.rc == NgxOk ==>
      && f.value.Some?
      && var name := HandshakeOf(r).value.serverName.value;
         f.value.value <= name && |f.value.value| == CStrLen(name)
  {
    match HandshakeOf(r)
    case Failure(e) => Ffi(NgxError, None, Some(e))
    case Success(h) =>
      match h.serverName
      case None => Ffi(NgxDeclined, None, None)
      case Some(name) => Ffi(NgxOk, Some(name[..CStrLen(name)]), None)
  }
}
